=== FILE: README.md ===
# Meme-swipe app: price cache, user controller and card stack

A Dafny model of three pieces of a Telegram meme-swiping mini app:

- **The client price service.** It keeps a per-meme cache of token prices
  that lives for one minute. It fills the cache from a price feed, making
  up to three attempts. When every attempt fails, it falls back to the prices
  bundled with the reference meme dataset. Reads are served from the cache
  while the entry is fresh and from the reference dataset otherwise. Three
  display formatters render a price, a market cap and a 24-hour change.
- **The server user controller.**
  - `createUser` upserts a user from a request.
  - `getUser` returns a user, creating one on first sight.
  - `getUserStats` reports a user's rank: one plus the number of users
    with strictly more points.
- **The client card stack.**
  - It turns a drag into a swipe direction and a direction into an action.
  - It drops swipes while one is in flight.
  - It copies the engagement counters of a successful reply into the shown
    meme.

The JavaScript values the formatters and the cache inspect are modelled in
`js_values.dfy`: missing values, numbers (finite or `NaN`) and strings. The
module covers truthiness, the `Number(...)` conversion and `toFixed` with its
round-half-up rule. A string carries the number it converts to as a separate
field, so the conversion of its text is not modelled. The clock, the
network replies and the database's save outcome are parameters. The exception the market-cap formatter raises on a
small string value is modelled, and so is the way it aborts a cache
refresh.

Modules:
- `Options` and `JsValues`: shared types.
- `PriceFormat`: the three formatters.
- `TokenMap`: the token-to-meme table.
- `PriceCache`: the cache update, the fallback load and the lookup.
- `PriceRefresh`: the retry loop.
- `Ranking`: rank from point totals.
- `Users`: the controller.
- `MemeStack`: the card stack.

Notable behaviour of the code, which the model follows:

- **Fallback load.** The fallback load writes an entry only for reference
  memes that carry project details. It does not write one for every known
  meme.
- **Small market caps.** The code calls `toFixed` on the raw value. That
  throws for a string below 1000, so it does not render a number. The
  throw aborts the whole cache update at that token, and the retry loop
  counts it as a failed attempt.
- **Referral redemption.** `ReferralController` is not imported in the
  controller file. Calling it throws, and the handler swallows the throw.
  So a referral never changes the stored user. The model records only
  whether redemption is attempted.
- **Advancing the stack.** `transitionToNextMeme` is not defined in the
  component. Scheduling it throws inside the `try`, after the engagement
  update, and the handler swallows the throw. So a successful swipe never
  advances the stack: the shown meme stays and only its counters change.

## Model

| member | source | states |
|---|---|---|
| JsValues.ToFixed | client/src/services/priceService.jsx:165-168 | `toFixed(d)` keeps the sign and the digit count. The scaled integer it prints lies within half a unit of the last place of `|x|·10^d`, with ties rounded up. |
| PriceFormat.FormatPrice | client/src/services/priceService.jsx:161-169 | A falsy or non-numeric price renders as "0.00". Any other price renders with 8, 6, 4 or 2 decimals below 0.0001, 0.01, 1 and above, keeping its sign and rounded to the last place. |
| PriceFormat.PricePrecisionAntitone | client/src/services/priceService.jsx:165-168 | A larger price never gets more decimals than a smaller one. |
| PriceFormat.PrecisionKeepsThreeDigits | client/src/services/priceService.jsx:165-168 | From 0.0001 up, the chosen precision leaves at least three significant digits: the scaled value is at least 100. |
| PriceFormat.FormatPriceExamples | client/src/services/priceService.jsx:161-169 | Concrete renderings: 0.000005 with 8 decimals, 0.5 with 4, 12.345 rounded up to 12.35. A zero number gives "0.00". The string "0" is truthy, so it renders as 0 with 8 decimals. |
| PriceFormat.MarketCapUnitIsLargestBelow | client/src/services/priceService.jsx:180-182 | The unit is B with divisor 1e9, M with 1e6, K with 1e3, or none with 1, and it is none exactly below 1000. It is the largest of 1e9, 1e6 and 1e3 that does not exceed the value, so from 1000 up the mantissa lies in [1, 1000), except above 1e12 with B. |
| PriceFormat.FormatMarketCap | client/src/services/priceService.jsx:176-184 | A falsy or non-numeric value gives "0". A truthy string below 1000 throws. Any other value renders as the value over its unit: one decimal with the suffix B, M or K, or two decimals without a suffix. The sign is kept and the result is rounded to the last place. |
| PriceFormat.FormatMarketCapExamples | client/src/services/priceService.jsx:176-184 | 1.5e9 renders as "1.5B", 2300 as "2.3K" and 0 as "0". |
| PriceFormat.MarketCapRoundsPastUnit | client/src/services/priceService.jsx:180-182 | 999950 stays in the K unit and renders as "1000.0K", because rounding happens after the unit is chosen. |
| PriceFormat.FormatPriceChange | client/src/services/priceService.jsx:171-174 | A falsy change, the number NaN included, gives 0. A truthy value whose number is NaN, such as a non-numeric string, gives NaN. Any other change is rounded to a whole number of hundredths, at most 0.005 away from the input. The sign is kept, and a tie rounds away from zero. |
| TokenMap.UniqueTokensDisjoint | client/src/services/priceService.jsx:16-26 | No meme id is listed under two tokens. |
| TokenMap.MappedMemeIds | client/src/services/priceService.jsx:16-26 | Every id in the token table is one of "1" to "20". |
| PriceCache.UpdateCache | client/src/services/priceService.jsx:86-103 | A cache update runs to completion exactly when no quote makes the market-cap formatter throw. It never removes a key. |
| PriceCache.UpdateLeavesUnreached | client/src/services/priceService.jsx:89-103 | A meme id that no token of the response reaches keeps its old entry, or stays absent. Together with `PriceCache.UpdateStopsAtFirstThrow`, the same holds for ids reached only by tokens after a throwing quote. |
| PriceCache.UpdateWritesLive | client/src/services/priceService.jsx:89-103 | Every entry the update changes is listed under a token of the response. It is stamped with the update time and is not a fallback. |
| PriceCache.UpdateFansOut | client/src/services/priceService.jsx:89-103 | After a full update, each meme gets the live record of the last quote whose token lists that meme, with the cache timestamp set to the update time. |
| PriceCache.UpdateFansOutToAllMemes | client/src/services/priceService.jsx:89-103 | When the token lists are disjoint and each token is quoted once, every meme of a quoted token holds its own token's live record. |
| PriceCache.UpdateStopsAtFirstThrow | client/src/services/priceService.jsx:89-103 | When quote k throws and no earlier one does, the update reports failure. The cache is then exactly what the first k quotes wrote. |
| PriceCache.LoadFallbackData | client/src/services/priceService.jsx:108-126 | A fallback load never removes a key. Every entry it adds or changes is flagged as a fallback and stamped with the load time. |
| PriceCache.FallbackCoversDetailed | client/src/services/priceService.jsx:108-126 | After a fallback load, every reference meme with details has an entry under its decimal id. The entry is flagged as a fallback and stamped with the load time. |
| PriceCache.FallbackLastWins | client/src/services/priceService.jsx:112-125 | When two reference memes share an id, the later one's record is the one kept. |
| PriceCache.FallbackLeavesOthers | client/src/services/priceService.jsx:112-125 | Keys that belong to no detailed reference meme keep their entries. |
| PriceCache.FindById | client/src/services/priceService.jsx:140 | The lookup returns the first reference meme with the id, or none when no meme has it. |
| PriceCache.FallbackFor | client/src/services/priceService.jsx:139-159 | The first reference meme with the id supplies its price and market cap, plus its change as a number, with 0 for falsy. With no such meme or no details, the result is "0.00", "0" and 0. The result is always a fallback, stamped now. |
| PriceCache.GetTokenData | client/src/services/priceService.jsx:128-137 | An entry younger than 60000 ms is returned as cached. Otherwise the reference fallback is returned. A result without the fallback flag always comes from a fresh entry. |
| PriceCache.ServedLiveAfterUpdate | client/src/services/priceService.jsx:128-133 | Within a minute of a full update, reading a meme of a quoted token returns the live record of the last quote whose token lists that meme. |
| PriceCache.ServedFallbackAfterLoad | client/src/services/priceService.jsx:128-137 | After a fallback load, reading a detailed reference meme returns a record flagged as a fallback, however much later the read happens. |
| PriceRefresh.RetryFrom | client/src/services/priceService.jsx:37-83 | The retry loop makes at most three attempts and waits between them. It succeeds exactly when some attempt succeeds, and then stops at the first success without loading the fallback. When every attempt fails it loads the fallback once. |
| PriceRefresh.InitializeData | client/src/services/priceService.jsx:34-84 | From the first attempt: success exactly when one of the three attempts fetches data that updates without throwing. Otherwise there are three attempts, two waits and one fallback load. |
| PriceRefresh.FailedRefreshLoadsFallback | client/src/services/priceService.jsx:75-79 | A failed refresh leaves every detailed reference meme cached as a fallback, stamped at the time of the last attempt. |
| PriceRefresh.SuccessfulRefreshWritesLive | client/src/services/priceService.jsx:66-70 | After a successful refresh, every meme of a quoted token holds the live record of the succeeding attempt. |
| PriceRefresh.ServedAfterRefresh | client/src/services/priceService.jsx:34-137 | After a successful refresh, a meme of a quoted token read within a minute gets a cached record without the fallback flag. After a failed refresh, a detailed reference meme is served a fallback record at any time. |
| Ranking.Rank | server/src/controllers/UserController.js:133-135 | The rank is one plus the number of users whose total is strictly greater. |
| Ranking.RankAtMostCount | server/src/controllers/UserController.js:133-135 | A stored user's rank lies between 1 and the number of users. |
| Ranking.RankOneIffTop | server/src/controllers/UserController.js:133-135 | Rank 1 exactly when no user has strictly more points. |
| Ranking.RankAntitone | server/src/controllers/UserController.js:133-135 | More points never give a worse rank. |
| Ranking.RankSkipsTies | server/src/controllers/UserController.js:133-135 | Tied users share a rank. Anyone below them is ranked at least the size of the tie further down (competition ranking). |
| Ranking.RankDependsOnMultiset | server/src/controllers/UserController.js:133-135 | A rank depends only on the multiset of point totals, not on the order of the documents. |
| Ranking.TiedRanksExample | server/src/controllers/UserController.js:133-135 | Totals 50, 50, 30 give ranks 1, 1 and 3. |
| Users.FindUser | server/src/controllers/UserController.js:14 | The lookup returns the first document with the telegram id, or none when no document has it. |
| Users.DefaultUsername | server/src/controllers/UserController.js:25 | A truthy username is kept. Otherwise the username is "user" followed by the last four characters of the id, or the whole id when it is shorter. |
| Users.NewUser | server/src/controllers/UserController.js:23-36 | A new user has the requested id and the default-or-given username. All five point buckets and the total are zero. |
| Users.Merge | server/src/controllers/UserController.js:16-20 | Updating an existing user replaces a name field exactly when the request gives a truthy value for it. Every other field is kept. |
| Users.MergeIdempotent | server/src/controllers/UserController.js:16-20 | Applying the same update twice equals applying it once. |
| Users.CreateUser | server/src/controllers/UserController.js:14-71 | A failed save answers 500 and changes nothing. A save answers 201 with the stored user; other users are untouched. An existing user gets only the truthy name fields replaced. A new user is appended with zero points. Referral redemption is attempted exactly when a referrer is given and the existing user has none. |
| Users.CreateUserKeepsInvariants | server/src/controllers/UserController.js:14-58 | `createUser` keeps telegram ids unique and keeps every total equal to the sum of its breakdown. |
| Users.GetUser | server/src/controllers/UserController.js:82-101 | A known user is returned with 200 and the store is unchanged. An unknown one is created with zero points and the query or default username, then returned. A failed save answers 500. |
| Users.GetUserKeepsInvariants | server/src/controllers/UserController.js:82-101 | `getUser` keeps telegram ids unique and totals consistent. |
| Users.GetUserIdempotent | server/src/controllers/UserController.js:82-101 | A second `getUser` for the same id changes nothing and returns the user the first call returned, whatever username the second call passes. |
| Users.GetUserStats | server/src/controllers/UserController.js:121-156 | An unknown id answers 404. A known one answers 200 with its id, username, total, breakdown and completed-task count (0 when absent). Its rank is one plus the number of users with strictly more points. It lies between 1 and the store size, and is 1 exactly when nobody has more points. |
| MemeStack.ActionFor | client/src/components/MemeStack/MemeStack.jsx:60-61 | "right" means like, "left" means dislike, and every other direction means superlike. |
| MemeStack.ClassifyDrag | client/src/components/MemeStack/MemeStack.jsx:151-162 | A drag more than 50 px upward whose vertical speed dominates is "super". Otherwise more than 50 px right is "right" and more than 50 px left is "left". Anything else is no swipe. |
| MemeStack.ClassifyDragMirror | client/src/components/MemeStack/MemeStack.jsx:156-162 | Mirroring a drag horizontally swaps right and left and leaves super swipes and non-swipes as they are. |
| MemeStack.DragSendsAction | client/src/components/MemeStack/MemeStack.jsx:60-61 | A classified drag sends a superlike for an upward swipe, a like for a right one and a dislike for a left one. |
| MemeStack.Begin | client/src/components/MemeStack/MemeStack.jsx:54-57 | Starting a swipe raises the animating flag, records the direction and closes the guard. The memes are left alone. |
| MemeStack.ApplyReply | client/src/components/MemeStack/MemeStack.jsx:86-91 | Only a successful reply that carries the meme replaces the engagement. The id and every other property are kept. |
| MemeStack.HandleSwipe | client/src/components/MemeStack/MemeStack.jsx:53-106 | A guarded swipe sends nothing and changes nothing. Otherwise it posts the mapped action for the shown meme. It then clears the flags, keeps the next meme and the shown meme's identity, and updates the counters only on a successful reply. |
| MemeStack.SecondSwipeDropped | client/src/components/MemeStack/MemeStack.jsx:54 | A swipe arriving while another is in flight is dropped: no request, no state change. |
| MemeStack.SwipeSettles | client/src/components/MemeStack/MemeStack.jsx:100-104 | After a swipe settles, with success or failure, the stack accepts the next swipe. |
| MemeStack.GetNextMeme | client/src/components/MemeStack/MemeStack.jsx:15-32 | Without a telegram id there is nothing to fetch. Otherwise the call yields exactly the data of a successful reply that has data, and nothing in every other case. |
| MemeStack.InitializeMemes | client/src/components/MemeStack/MemeStack.jsx:34-51 | A stack that already shows a meme is left alone. An empty one shows the first fetched meme. The next meme is set only after a first meme arrived, and is then the second fetched meme when that fetch succeeds. A failed second fetch leaves the next meme as it was. |
| MemeStack.InitializeMemesIdempotent | client/src/components/MemeStack/MemeStack.jsx:34-51 | Once a meme is shown, running the initial load again changes nothing, whatever it fetches. |
| MemeStack.LoadedStackAccepts | client/src/components/MemeStack/MemeStack.jsx:34-61 | An idle, empty stack whose first fetch succeeds accepts a swipe. That swipe posts the mapped action for the fetched meme. |

## Left out

- The network is not modelled: the fetch calls, the URLs and the choice of base URL. Each feed or endpoint reply is a parameter: a quote list, a failed attempt, or a reply datatype.
- `Date.now()` is a parameter. Where the code reads the clock twice in one call, the model uses one instant.
- The five-second `setTimeout` between retries is not modelled as time. The model counts the waits and takes each attempt's time from the attempt.
- MemeStack.HandleSwipe: a successful reply without the meme's data is modelled as leaving the shown meme unchanged, after which the swipe settles. In the component the engagement is read inside the state updater passed to the setter, and React runs that updater outside the handler's `try`. So the read fails during rendering, and the result is a render error, not a quiet no-op. The model does not describe React's render-phase errors. `MemeStack.ApplyReply` shares this limitation.
- The 150 ms and 300 ms timers in the card stack are not modelled as time. A swipe's result is the state after the 300 ms reset. Swipes arriving before the reset are covered by `MemeStack.SecondSwipeDropped`.
- JsValues.ToFixed: renders a number as its sign, its scaled integer and its digit count, not as a digit string. The exponent form for magnitudes of 1e21 and above is not modelled.
- JsValues.ToFixed: works on exact reals. Binary double rounding is not modelled, so a tie that a double lands just below is rounded up here.
- Infinities, booleans, objects and arrays as formatter inputs are not modelled. Only missing, numeric and string values are.
- `console` logging is not modelled.
- Quote tokens that hit an inherited object property of the token table (such as `constructor`) are not modelled. The table is treated as a plain map.
- An undefined meme id passed to the price lookup is not modelled. The id is an integer.
- The reference meme dataset is a parameter of each operation. Its price and market cap fields are strings.
- The loader stores a falsy reference change as the number 0 and a truthy one as it is. The lookup converts the change with `Number(...)`. Both behaviours are modelled as written; the model does not reconcile them.
- The MongoDB sessions and transactions are not modelled. A failed save is a boolean parameter. Other database errors are not modelled.
- The `User` schema's defaults and validation are not modelled. The schema is not part of this model.
- A non-string telegram id is not modelled. Ids are strings.
- `ReferralController.redeemReferral` is not modelled. It is not imported in the controller file, so calling it throws, and the throw is caught. The model records only whether redemption is attempted.
- Advancing the card stack after a swipe is not modelled. `transitionToNextMeme` is not defined in the component, and the throw it causes is caught, so the stack never advances.
- The `onMemeChange` callback is not modelled.
- Rendering, framer-motion animation, and the mobile and dragging flags are not modelled.
- `getHeaders` is not modelled. It is neither defined nor imported in the component. Unless a global supplies it, calling it throws inside `getNextMeme`'s `try`, and the call yields nothing. The `NoNext` reply stands for that case. The model keeps the reply as a parameter, so the rest of the stack can be stated.
- `DetailsPage.jsx` is not part of this model. It does not use the price service. It renders a meme's contract address with a copy-to-clipboard button, and link buttons that open a new window.
- `interactionRoutes.js` is not part of this model: it only wires routes.
- The server-side meme selection and the atomic engagement counters are not part of this model. Their code is not among the modelled files.

=== FILE: js_values.dfy ===
/** The slice of JavaScript value semantics the price formatters depend on:
    truthiness, the `Number(...)` conversion and `Number.prototype.toFixed`. */
module JsValues {

  /** What `Number(...)` yields: NaN or a finite number. */
  datatype Numeric = NaN | Finite(v: real)

  /** A value read from a JSON payload or from the reference dataset.
      `Missing` stands for `undefined` and `null`; a string carries its text
      (only its emptiness matters here) and what `Number(text)` yields.
      `Number(null)` is 0 where `ToNumber(Missing)` is NaN, but no use here can
      tell them apart: every conversion is guarded by `Truthy`, which rejects
      both, or goes through `PriceCache.NumberOrZero`, where 0 and NaN both give 0. */
  datatype Value = Missing | Num(n: Numeric) | Str(text: string, asNumber: Numeric)

  /** JavaScript truthiness: `undefined`, `null`, `0`, `NaN` and `""` are falsy. */
  predicate Truthy(v: Value) {
    match v
    case Missing => false
    case Num(n) => n.Finite? && n.v != 0.0
    case Str(t, _) => t != ""
  }

  /** `Number(v)` on the values above, with `Missing` read as `undefined`
      (`Number(undefined)` is NaN); see `Value` on `null`. */
  function ToNumber(v: Value): Numeric {
    match v
    case Missing => NaN
    case Num(n) => n
    case Str(_, n) => n
  }

  /** Text a formatter returns: a literal string, or what `toFixed` renders,
      given by its sign, its magnitude scaled by 10^digits (so `"12.35"` is
      `Fixed(false, 1235, 2, "")`) and a unit suffix appended after it. */
  datatype Text = Lit(s: string) | Fixed(negative: bool, scaled: nat, digits: nat, suffix: string)

  function Pow10(n: nat): (r: real)
    ensures r >= 1.0
  {
    if n == 0 then 1.0 else 10.0 * Pow10(n - 1)
  }

  function Abs(x: real): (r: real)
    ensures r >= 0.0 && (r == x || r == -x)
  {
    if x < 0.0 then -x else x
  }

  /** `x.toFixed(d)` followed by `suffix`: a minus sign for a negative `x`,
      then the integer n for which n / 10^d is nearest to |x|, the larger one
      on a tie. */
  function ToFixed(x: real, d: nat, suffix: string): (t: Text)
    ensures t.Fixed? && t.digits == d && t.suffix == suffix
    ensures t.negative <==> x < 0.0
    ensures t.scaled as real - 0.5 <= Abs(x) * Pow10(d) < t.scaled as real + 0.5
  {
    MulNonNegative(Abs(x), Pow10(d));
    Fixed(x < 0.0, RoundHalfUp(Abs(x) * Pow10(d)), d, suffix)
  }

  lemma MulNonNegative(a: real, b: real)
    requires a >= 0.0 && b >= 0.0
    ensures a * b >= 0.0
  {
  }

  /** The integer nearest to a non-negative `y`, the larger one on a tie. */
  function RoundHalfUp(y: real): (n: nat)
    requires y >= 0.0
    ensures n as real - 0.5 <= y < n as real + 0.5
  {
    (y + 0.5).Floor
  }
}

=== FILE: meme_stack.dfy ===
/** The decisions inside the card stack: which drag counts as which swipe,
    which swipe sends which action, the one-flag guard that drops swipes
    while one is in flight, and the local engagement update on a reply.
    Network replies are parameters. */
module MemeStack {
  import opened Options
  import JsValues

  datatype Engagement = Engagement(likes: int, dislikes: int, superLikes: int)

  /** A meme as the client holds it: its id, its counters, and every other
      property (title, image, project details, ...) by name. */
  datatype Meme = Meme(id: int, engagement: Engagement, attributes: map<string, string>)

  datatype Action = Like | Dislike | Superlike

  /** Pixels a drag must travel before it counts as a swipe. */
  const SwipeThreshold: real := 50.0

  /** The action a swipe direction sends: a like for right, a dislike for
      left, and a superlike for any other direction. */
  function ActionFor(direction: string): (a: Action)
    ensures a == Like <==> direction == "right"
    ensures a == Dislike <==> direction == "left"
    ensures a == Superlike <==> direction != "right" && direction != "left"
  {
    if direction == "right" then Like else if direction == "left" then Dislike else Superlike
  }

  /** An upward drag whose vertical speed dominates: a super swipe. */
  predicate IsUpSwipe(xOffset: real, yOffset: real, xVelocity: real, yVelocity: real) {
    JsValues.Abs(yVelocity) > JsValues.Abs(xVelocity) && yOffset < -SwipeThreshold
  }

  /** The `onDragEnd` handler: the direction it passes to `handleSwipe`, or
      none when the drag stays within the threshold. */
  function ClassifyDrag(xOffset: real, yOffset: real, xVelocity: real, yVelocity: real): (d: Option<string>)
    ensures d == Some("super") <==> IsUpSwipe(xOffset, yOffset, xVelocity, yVelocity)
    ensures d == Some("right") <==> !IsUpSwipe(xOffset, yOffset, xVelocity, yVelocity) && xOffset > SwipeThreshold
    ensures d == Some("left") <==> !IsUpSwipe(xOffset, yOffset, xVelocity, yVelocity) && xOffset < -SwipeThreshold
    ensures d.None? <==>
      !IsUpSwipe(xOffset, yOffset, xVelocity, yVelocity) && -SwipeThreshold <= xOffset <= SwipeThreshold
  {
    if IsUpSwipe(xOffset, yOffset, xVelocity, yVelocity) then Some("super")
    else if xOffset > SwipeThreshold then Some("right")
    else if xOffset < -SwipeThreshold then Some("left")
    else None
  }

  /** Mirroring a drag left-to-right turns a like into a dislike and back,
      and leaves super swipes and non-swipes as they are. */
  lemma ClassifyDragMirror(xOffset: real, yOffset: real, xVelocity: real, yVelocity: real)
    ensures var d := ClassifyDrag(xOffset, yOffset, xVelocity, yVelocity);
      var m := ClassifyDrag(-xOffset, yOffset, -xVelocity, yVelocity);
      && (d == Some("right") <==> m == Some("left"))
      && (d == Some("left") <==> m == Some("right"))
      && (d == Some("super") <==> m == Some("super"))
      && (d.None? <==> m.None?)
  {
  }

  /** A classified drag sends the matching action: an up swipe a superlike,
      a right swipe a like, a left swipe a dislike. */
  lemma DragSendsAction(xOffset: real, yOffset: real, xVelocity: real, yVelocity: real)
    requires ClassifyDrag(xOffset, yOffset, xVelocity, yVelocity).Some?
    ensures var a := ActionFor(ClassifyDrag(xOffset, yOffset, xVelocity, yVelocity).value);
      && (a == Superlike <==> IsUpSwipe(xOffset, yOffset, xVelocity, yVelocity))
      && (a == Like <==> !IsUpSwipe(xOffset, yOffset, xVelocity, yVelocity) && xOffset > SwipeThreshold)
      && (a == Dislike <==> !IsUpSwipe(xOffset, yOffset, xVelocity, yVelocity) && xOffset < -SwipeThreshold)
  {
  }

  /** The component's state. */
  datatype StackState = StackState(
    current: Option<Meme>,
    next: Option<Meme>,
    lastSwipe: Option<string>,
    animating: bool)

  /** The body `handleSwipe` posts. */
  datatype Interaction = Interaction(action: Action, memeId: int, telegramId: Option<string>)

  /** The interaction endpoint's answer: no answer at all, or its `success`
      flag and the updated meme's engagement (absent when the payload has
      no meme, which makes reading it throw). */
  datatype InteractionReply = NoReply | Replied(success: bool, engagement: Option<Engagement>)

  /** What a swipe leaves behind: the state once the 300 ms reset has run,
      and the request sent, if any. */
  datatype SwipeResult = SwipeResult(state: StackState, request: Option<Interaction>)

  /** The swipe guard: a swipe is taken only when no animation runs and a
      meme is shown. */
  predicate Accepts(s: StackState) {
    !s.animating && s.current.Some?
  }

  /** The state while the request is in flight. */
  function Begin(s: StackState, direction: string): (t: StackState)
    requires Accepts(s)
    ensures t.animating && t.lastSwipe == Some(direction) && !Accepts(t)
    ensures t.current == s.current && t.next == s.next
  {
    s.(animating := true, lastSwipe := Some(direction))
  }

  /** The shown meme after the reply: a successful reply that carries the
      meme replaces its engagement counters and keeps every other property;
      any other reply changes nothing. */
  function ApplyReply(m: Meme, reply: InteractionReply): (r: Meme)
    ensures r.id == m.id && r.attributes == m.attributes
    ensures reply.Replied? && reply.success && reply.engagement.Some? ==> r.engagement == reply.engagement.value
    ensures !(reply.Replied? && reply.success && reply.engagement.Some?) ==> r == m
  {
    if reply.Replied? && reply.success && reply.engagement.Some? then m.(engagement := reply.engagement.value)
    else m
  }

  /** `handleSwipe(direction)` from request to reset. */
  function HandleSwipe(s: StackState, direction: string, telegramId: Option<string>, reply: InteractionReply): (r: SwipeResult)
    ensures !Accepts(s) ==> r.state == s && r.request.None?
    ensures Accepts(s) ==>
      && r.request == Some(Interaction(ActionFor(direction), s.current.value.id, telegramId))
      && !r.state.animating && r.state.lastSwipe.None?
      && r.state.next == s.next
      && r.state.current.Some?
      && r.state.current.value.id == s.current.value.id
      && r.state.current.value.attributes == s.current.value.attributes
    ensures Accepts(s) && reply.Replied? && reply.success && reply.engagement.Some? ==>
      r.state.current.value.engagement == reply.engagement.value
    ensures Accepts(s) && !(reply.Replied? && reply.success && reply.engagement.Some?) ==>
      r.state.current == s.current
  {
    if !Accepts(s) then SwipeResult(s, None)
    else
      var flying := Begin(s, direction);
      var m := flying.current.value;
      var request := Interaction(ActionFor(direction), m.id, telegramId);
      var answered := flying.(current := Some(ApplyReply(m, reply)));
      SwipeResult(answered.(lastSwipe := None, animating := false), Some(request))
  }

  /** While a swipe is in flight every further swipe is dropped: no second
      request, no state change. */
  lemma SecondSwipeDropped(s: StackState, d1: string, d2: string, telegramId: Option<string>, reply: InteractionReply)
    requires Accepts(s)
    ensures HandleSwipe(Begin(s, d1), d2, telegramId, reply) == SwipeResult(Begin(s, d1), None)
  {
  }

  /** After a swipe has settled the stack accepts the next one, whether the
      request succeeded or failed. */
  lemma SwipeSettles(s: StackState, direction: string, telegramId: Option<string>, reply: InteractionReply)
    requires Accepts(s)
    ensures Accepts(HandleSwipe(s, direction, telegramId, reply).state)
  {
  }

  /** The next-meme endpoint's answer. */
  datatype NextReply = NoNext | NextReplied(success: bool, data: Option<Meme>)

  /** `getNextMeme`: nothing without a telegram id (and no request), nothing
      unless the reply is a success with data, otherwise that data. */
  function GetNextMeme(telegramId: Option<string>, reply: NextReply): (m: Option<Meme>)
    ensures (telegramId.None? || telegramId.value == "") ==> m.None?
    ensures m.Some? <==>
      && telegramId.Some? && telegramId.value != ""
      && reply.NextReplied? && reply.success && reply.data.Some?
    ensures m.Some? ==> m == reply.data
  {
    if telegramId.None? || telegramId.value == "" then None
    else match reply
      case NoNext => None
      case NextReplied(success, data) => if success && data.Some? then data else None
  }

  /** `initializeMemes`: on an empty stack, fetch the shown meme and, once
      one arrived, the one behind it. */
  function InitializeMemes(s: StackState, telegramId: Option<string>, first: NextReply, second: NextReply): (t: StackState)
    ensures s.current.Some? ==> t == s
    ensures t.animating == s.animating && t.lastSwipe == s.lastSwipe
    ensures t.next != s.next ==> t.current.Some? && s.current.None? && t.next == GetNextMeme(telegramId, second)
    ensures s.current.None? ==> t.current == GetNextMeme(telegramId, first)
    ensures s.current.None? && GetNextMeme(telegramId, first).Some? && GetNextMeme(telegramId, second).Some? ==>
      t.next == GetNextMeme(telegramId, second)
    ensures GetNextMeme(telegramId, second).None? ==> t.next == s.next
  {
    if s.current.Some? then s
    else match GetNextMeme(telegramId, first)
      case None => s
      case Some(m1) =>
        var shown := s.(current := Some(m1));
        match GetNextMeme(telegramId, second)
        case None => shown
        case Some(m2) => shown.(next := Some(m2))
  }

  /** Loading is idempotent once a meme is shown: a later run of the
      initial load, whatever its replies, leaves the stack as it is. */
  lemma InitializeMemesIdempotent(s: StackState, telegramId: Option<string>, first: NextReply, second: NextReply,
                                  again1: NextReply, again2: NextReply)
    requires s.current.Some? || GetNextMeme(telegramId, first).Some?
    ensures var t := InitializeMemes(s, telegramId, first, second);
      InitializeMemes(t, telegramId, again1, again2) == t
  {
  }

  /** A stack that was idle before loading takes a swipe as soon as the
      first fetch delivered a meme, and that swipe is about the fetched meme. */
  lemma LoadedStackAccepts(s: StackState, telegramId: Option<string>, first: NextReply, second: NextReply,
                           direction: string, reply: InteractionReply)
    requires !s.animating && s.current.None?
    requires first.NextReplied? && first.success && first.data.Some?
    requires telegramId.Some? && telegramId.value != ""
    ensures var t := InitializeMemes(s, telegramId, first, second);
      && Accepts(t)
      && HandleSwipe(t, direction, telegramId, reply).request
         == Some(Interaction(ActionFor(direction), first.data.value.id, telegramId))
  {
  }
}

=== FILE: options.dfy ===
/** The optional value used wherever the source reads a property that may be
    absent (`undefined`/`null`) or a lookup that may find nothing. */
module Options {

  datatype Option<+T> = None | Some(value: T)
}

=== FILE: price_cache.dfy ===
/** The price service's cache: `updateCache` fanning one token's quote out
    to its meme ids, `loadFallbackData` filling the cache from the reference
    dataset, and the freshness-checked lookup `getTokenDataByMemeId` with
    its on-demand fallback `getFallbackDataForMemeId`. Time is a parameter. */
module PriceCache {
  import opened Options
  import opened JsValues
  import opened PriceFormat
  import opened TokenMap

  /** Milliseconds an entry stays fresh. */
  const CacheTimeout: int := 60000

  /** The record handed to the display: live data carries `isFallback` false. */
  datatype PriceData = PriceData(
    price: Text,
    marketCap: Text,
    priceChange24h: Value,
    timestamp: int,
    isFallback: bool)

  datatype Entry = Entry(data: PriceData, timestamp: int)

  /** The cache, keyed by the meme id rendered as a string. */
  type Cache = map<string, Entry>

  /** One token's quote in the price feed's response. */
  datatype Quote = Quote(usd: Value, marketCap: Value, change24h: Value)

  /** The price feed's response: token id to quote, in `Object.entries`
      order (integer-like keys first, ascending, then the rest as inserted). */
  type Response = seq<(string, Quote)>

  /** Project details of a reference meme: price and market cap as the
      dataset's display strings, and the raw 24h change. */
  datatype Details = Details(price: string, marketCap: string, priceChange24h: Value)

  /** A record of the bundled reference dataset. */
  datatype RefMeme = RefMeme(id: int, details: Option<Details>)

  // ---------------------------------------------------------------- keys

  function Digit(d: nat): char
    requires d < 10
  {
    "0123456789"[d]
  }

  function NatToString(n: nat): (s: string)
    ensures |s| >= 1
    decreases n
  {
    if n < 10 then [Digit(n)] else NatToString(n / 10) + [Digit(n % 10)]
  }

  /** The cache key of a meme id: its decimal digits, with a leading minus sign when negative. */
  function Key(id: int): string {
    if id < 0 then "-" + NatToString(-id) else NatToString(id)
  }

  // ---------------------------------------------------------- updateCache

  /** `formatMarketCap` throws on this quote, which aborts the update: its
      market cap is a non-empty string whose number is finite and below a
      thousand (the contract of `FormatMarketCap` ties the two together). */
  predicate Throws(q: Quote) {
    var v := q.marketCap;
    v.Str? && Truthy(v) && ToNumber(v).Finite? && ToNumber(v).v < 1000.0
  }

  /** No quote of the response makes `formatMarketCap` throw. */
  predicate NoThrow(data: Response) {
    forall i | 0 <= i < |data| :: !Throws(data[i].1)
  }

  /** The formatted record `updateCache` builds for one quote at time `now`. */
  function LiveRecord(q: Quote, now: int): (d: PriceData)
    requires !Throws(q)
    ensures !d.isFallback && d.timestamp == now
    ensures d.price == FormatPrice(q.usd)
    ensures d.marketCap == FormatMarketCap(q.marketCap).value
    ensures d.priceChange24h == Num(FormatPriceChange(q.change24h))
  {
    PriceData(FormatPrice(q.usd), FormatMarketCap(q.marketCap).value,
              Num(FormatPriceChange(q.change24h)), now, false)
  }

  /** The cache with entry `e` stored under every meme id of `memes`. */
  function WriteAll(cache: Cache, memes: seq<string>, e: Entry): (c: Cache)
    ensures c.Keys == cache.Keys + set m | m in memes
    ensures forall m | m in memes :: c[m] == e
    ensures forall m | m in cache && m !in memes :: c[m] == cache[m]
  {
    cache + map m | m in memes :: e
  }

  /** Index `i` is the last entry of the response whose token reaches `m`. */
  predicate LastWriter(tokens: TokenLists, data: Response, i: int, m: string) {
    && 0 <= i < |data|
    && m in MemesOf(tokens, data[i].0)
    && forall j | i < j < |data| :: m !in MemesOf(tokens, data[j].0)
  }

  /** Some entry of the response reaches meme id `m`. */
  predicate Reached(tokens: TokenLists, data: Response, m: string) {
    exists i | 0 <= i < |data| :: m in MemesOf(tokens, data[i].0)
  }

  /** The cache after `updateCache`, and whether it ran to the end
      (`false`: a market cap threw part-way and later tokens were not written). */
  datatype Update = Update(cache: Cache, completed: bool)

  /** `updateCache(data)` at time `now`: each token's record is formatted
      first and then written to every meme id the token reaches. */
  function UpdateCache(tokens: TokenLists, cache: Cache, data: Response, now: int): (u: Update)
    ensures u.completed <==> NoThrow(data)
    ensures cache.Keys <= u.cache.Keys
    decreases |data|
  {
    if data == [] then Update(cache, true)
    else
      var prev := UpdateCache(tokens, cache, Init(data), now);
      var (token, quote) := data[|data| - 1];
      if !prev.completed then prev
      else if Throws(quote) then Update(prev.cache, false)
      else Update(WriteAll(prev.cache, MemesOf(tokens, token), Entry(LiveRecord(quote, now), now)), true)
  }

  /** All but the last element: both `forEach` loops are unrolled from the back. */
  function Init<T>(s: seq<T>): (init: seq<T>)
    requires s != []
    ensures |init| == |s| - 1
    ensures forall i | 0 <= i < |init| :: init[i] == s[i]
  {
    s[..|s| - 1]
  }

  /** A meme id that no token of the response reaches keeps its entry, or its absence. */
  lemma {:induction false} UpdateLeavesUnreached(tokens: TokenLists, cache: Cache, data: Response, now: int, m: string)
    requires !Reached(tokens, data, m)
    ensures var c := UpdateCache(tokens, cache, data, now).cache;
      (m in c <==> m in cache) && (m in cache ==> c[m] == cache[m])
    decreases |data|
  {
    if data != [] {
      assert m !in MemesOf(tokens, data[|data| - 1].0);
      UpdateLeavesUnreached(tokens, cache, Init(data), now, m);
    }
  }

  /** Every entry the update adds or changes is a live record stamped with
      the single `now` of this update, for a meme id some token reaches. */
  lemma {:induction false} UpdateWritesLive(tokens: TokenLists, cache: Cache, data: Response, now: int, m: string)
    requires var c := UpdateCache(tokens, cache, data, now).cache;
      m in c && (m !in cache || c[m] != cache[m])
    ensures var e := UpdateCache(tokens, cache, data, now).cache[m];
      && Reached(tokens, data, m)
      && e.timestamp == now
      && e.data.timestamp == now
      && !e.data.isFallback
    decreases |data|
  {
    if data != [] {
      var init := Init(data);
      var prev := UpdateCache(tokens, cache, init, now);
      var token := data[|data| - 1].0;
      if m in MemesOf(tokens, token) && prev.completed && !Throws(data[|data| - 1].1) {
      } else {
        UpdateWritesLive(tokens, cache, init, now, m);
      }
    }
  }

  /** When no market cap throws, the update leaves at each reached meme id the record of the
      last token that reaches it, stamped `now`. */
  lemma {:induction false} UpdateFansOut(tokens: TokenLists, cache: Cache, data: Response, now: int, i: int, m: string)
    requires NoThrow(data)
    requires LastWriter(tokens, data, i, m)
    ensures var c := UpdateCache(tokens, cache, data, now).cache;
      m in c && c[m] == Entry(LiveRecord(data[i].1, now), now)
    decreases |data|
  {
    var init := Init(data);
    if i < |data| - 1 {
      assert LastWriter(tokens, init, i, m);
      UpdateFansOut(tokens, cache, init, now, i, m);
    }
  }

  /** Token ids of a JSON object are distinct. */
  predicate DistinctTokens(data: Response) {
    forall i, j | 0 <= i < j < |data| :: data[i].0 != data[j].0
  }

  /** With distinct token ids, every meme id listed under a returned token
      receives exactly that token's record: the lists are disjoint, so no
      other token overwrites it. */
  lemma UpdateFansOutToAllMemes(tokens: TokenLists, cache: Cache, data: Response, now: int, i: int, m: string)
    requires PairwiseDisjoint(tokens) && DistinctTokens(data)
    requires NoThrow(data)
    requires 0 <= i < |data| && m in MemesOf(tokens, data[i].0)
    ensures var c := UpdateCache(tokens, cache, data, now).cache;
      m in c && c[m] == Entry(LiveRecord(data[i].1, now), now)
  {
    forall j | i < j < |data|
      ensures m !in MemesOf(tokens, data[j].0)
    {
      assert data[i].0 != data[j].0;
      if data[j].0 in tokens {
        assert Disjoint(tokens[data[i].0], tokens[data[j].0]);
      }
    }
    UpdateFansOut(tokens, cache, data, now, i, m);
  }

  /** When the quote at `k` is the first whose market cap throws, the update
      stops there: entries of the tokens before `k` are written, none after. */
  lemma {:induction false} UpdateStopsAtFirstThrow(tokens: TokenLists, cache: Cache, data: Response, now: int, k: int)
    requires 0 <= k < |data| && Throws(data[k].1)
    requires forall j | 0 <= j < k :: !Throws(data[j].1)
    ensures var u := UpdateCache(tokens, cache, data, now);
      !u.completed && u.cache == UpdateCache(tokens, cache, data[..k], now).cache
    decreases |data|
  {
    var init := Init(data);
    if k == |data| - 1 {
      assert init == data[..k];
    } else {
      assert init[..k] == data[..k];
      UpdateStopsAtFirstThrow(tokens, cache, init, now, k);
    }
  }

  // ----------------------------------------------------- loadFallbackData

  /** The entry `loadFallbackData` stores for a reference meme with details:
      its display strings as they are, a falsy 24h change replaced by 0. */
  function FallbackRecord(d: Details, now: int): PriceData {
    PriceData(Lit(d.price), Lit(d.marketCap),
              if Truthy(d.priceChange24h) then d.priceChange24h else Num(Finite(0.0)),
              now, true)
  }

  /** `loadFallbackData()` at time `now`: for each reference meme in order,
      one with project details overwrites the entry under its key. */
  function LoadFallbackData(cache: Cache, refs: seq<RefMeme>, now: int): (c: Cache)
    ensures cache.Keys <= c.Keys
    ensures forall k | k in c && (k !in cache || c[k] != cache[k]) ::
      c[k].data.isFallback && c[k].timestamp == now && c[k].data.timestamp == now
    decreases |refs|
  {
    if refs == [] then cache
    else
      var prev := LoadFallbackData(cache, Init(refs), now);
      var r := refs[|refs| - 1];
      match r.details
      case None => prev
      case Some(d) => prev[Key(r.id) := Entry(FallbackRecord(d, now), now)]
  }

  /** Every reference meme with details ends up in the cache as a fallback
      entry stamped `now`. */
  lemma {:induction false} FallbackCoversDetailed(cache: Cache, refs: seq<RefMeme>, now: int, i: int)
    requires 0 <= i < |refs| && refs[i].details.Some?
    ensures var c := LoadFallbackData(cache, refs, now);
      var k := Key(refs[i].id);
      && k in c
      && c[k].data.isFallback
      && c[k].timestamp == now
      && c[k].data.timestamp == now
    decreases |refs|
  {
    var last := refs[|refs| - 1];
    if i < |refs| - 1 && !(last.details.Some? && Key(last.id) == Key(refs[i].id)) {
      FallbackCoversDetailed(cache, Init(refs), now, i);
    }
  }

  /** The entry of a key is the record of the last reference meme with
      details under that key. */
  lemma {:induction false} FallbackLastWins(cache: Cache, refs: seq<RefMeme>, now: int, i: int)
    requires 0 <= i < |refs| && refs[i].details.Some?
    requires forall j | i < j < |refs| :: refs[j].details.None? || Key(refs[j].id) != Key(refs[i].id)
    ensures var c := LoadFallbackData(cache, refs, now);
      Key(refs[i].id) in c && c[Key(refs[i].id)] == Entry(FallbackRecord(refs[i].details.value, now), now)
    decreases |refs|
  {
    if i < |refs| - 1 {
      FallbackLastWins(cache, Init(refs), now, i);
    }
  }

  /** Keys that no reference meme with details maps to are left as they were. */
  lemma {:induction false} FallbackLeavesOthers(cache: Cache, refs: seq<RefMeme>, now: int, k: string)
    requires forall j | 0 <= j < |refs| :: refs[j].details.None? || Key(refs[j].id) != k
    ensures var c := LoadFallbackData(cache, refs, now);
      (k in c <==> k in cache) && (k in cache ==> c[k] == cache[k])
    decreases |refs|
  {
    if refs != [] {
      FallbackLeavesOthers(cache, Init(refs), now, k);
    }
  }

  // --------------------------------------------- getFallbackDataForMemeId

  /** The position of the first reference meme carrying the id, if any. */
  function FindById(refs: seq<RefMeme>, id: int): (r: Option<nat>)
    ensures r.Some? ==> r.value < |refs| && refs[r.value].id == id
    ensures r.Some? ==> forall j | 0 <= j < r.value :: refs[j].id != id
    ensures r.None? ==> forall j | 0 <= j < |refs| :: refs[j].id != id
    decreases |refs|
  {
    if refs == [] then None
    else if refs[0].id == id then Some(0)
    else match FindById(refs[1..], id)
      case None => None
      case Some(i) => Some(i + 1)
  }

  /** The value converted to a number, with NaN and zero both giving 0. */
  function NumberOrZero(v: Value): (x: real)
    ensures ToNumber(v).Finite? ==> x == ToNumber(v).v
    ensures ToNumber(v).NaN? ==> x == 0.0
  {
    match ToNumber(v)
    case NaN => 0.0
    case Finite(x) => x
  }

  /** `getFallbackDataForMemeId(memeId)`: the first reference meme with the
      id, if it has project details, supplies price and market cap; anything
      else yields the zero record. Always marked as fallback. */
  function FallbackFor(refs: seq<RefMeme>, id: int, now: int): (d: PriceData)
    ensures d.isFallback && d.timestamp == now
    ensures d.priceChange24h.Num? && d.priceChange24h.n.Finite?
    ensures (forall j | 0 <= j < |refs| :: refs[j].id != id) ==>
      d.price == Lit("0.00") && d.marketCap == Lit("0") && d.priceChange24h == Num(Finite(0.0))
    ensures forall i | 0 <= i < |refs| && refs[i].id == id && (forall j | 0 <= j < i :: refs[j].id != id) ::
      if refs[i].details.Some? then
        && d.price == Lit(refs[i].details.value.price)
        && d.marketCap == Lit(refs[i].details.value.marketCap)
        && d.priceChange24h == Num(Finite(NumberOrZero(refs[i].details.value.priceChange24h)))
      else
        d.price == Lit("0.00") && d.marketCap == Lit("0") && d.priceChange24h == Num(Finite(0.0))
  {
    var found := FindById(refs, id);
    if found.Some? && refs[found.value].details.Some? then
      var det := refs[found.value].details.value;
      PriceData(Lit(det.price), Lit(det.marketCap), Num(Finite(NumberOrZero(det.priceChange24h))), now, true)
    else
      PriceData(Lit("0.00"), Lit("0"), Num(Finite(0.0)), now, true)
  }

  // ------------------------------------------------- getTokenDataByMemeId

  /** An entry is served only while strictly younger than the timeout. */
  predicate Fresh(cache: Cache, k: string, now: int) {
    k in cache && now - cache[k].timestamp < CacheTimeout
  }

  /** `getTokenDataByMemeId(memeId)` at time `now`. */
  function GetTokenData(cache: Cache, refs: seq<RefMeme>, id: int, now: int): (d: PriceData)
    ensures Fresh(cache, Key(id), now) ==> d == cache[Key(id)].data
    ensures !Fresh(cache, Key(id), now) ==> d == FallbackFor(refs, id, now) && d.isFallback
    ensures !d.isFallback ==> Fresh(cache, Key(id), now) && d == cache[Key(id)].data
  {
    if Fresh(cache, Key(id), now) then cache[Key(id)].data else FallbackFor(refs, id, now)
  }

  /** Within the timeout after an update in which no market cap throws, a
      meme id reached by the response is served the live record of the last
      token reaching it. */
  lemma ServedLiveAfterUpdate(tokens: TokenLists, cache: Cache, data: Response, refs: seq<RefMeme>,
                              stamped: int, now: int, i: int, id: int)
    requires NoThrow(data)
    requires LastWriter(tokens, data, i, Key(id))
    requires now - stamped < CacheTimeout
    ensures var d := GetTokenData(UpdateCache(tokens, cache, data, stamped).cache, refs, id, now);
      d == LiveRecord(data[i].1, stamped) && !d.isFallback
  {
    UpdateFansOut(tokens, cache, data, stamped, i, Key(id));
  }

  /** After fallback data is loaded, every reference meme with details is
      served a fallback record, fresh or not. */
  lemma ServedFallbackAfterLoad(cache: Cache, refs: seq<RefMeme>, loaded: int, now: int, i: int)
    requires 0 <= i < |refs| && refs[i].details.Some?
    ensures GetTokenData(LoadFallbackData(cache, refs, loaded), refs, refs[i].id, now).isFallback
  {
    FallbackCoversDetailed(cache, refs, loaded, i);
  }
}

=== FILE: price_format.dfy ===
/** The three formatters of the price service (`formatPrice`,
    `formatMarketCap`, `formatPriceChange`): which text or number each
    renders for a raw value, down to the threshold and precision choices. */
module PriceFormat {
  import opened JsValues
  import opened Options

  /** Decimals `formatPrice` keeps for a number: the smaller the price, the more. */
  function PricePrecision(x: real): nat {
    if x < 0.0001 then 8 else if x < 0.01 then 6 else if x < 1.0 then 4 else 2
  }

  /** `formatPrice`: `"0.00"` for a falsy value or one whose number is NaN,
      otherwise the number rendered with `PricePrecision` decimals. */
  function FormatPrice(price: Value): (t: Text)
    ensures t.Lit? <==> !Truthy(price) || ToNumber(price).NaN?
    ensures t.Lit? ==> t.s == "0.00"
    ensures t.Fixed? ==>
      var x := ToNumber(price).v;
      && t.suffix == ""
      && t.digits == PricePrecision(x)
      && (t.negative <==> x < 0.0)
      && t.scaled as real - 0.5 <= Abs(x) * Pow10(t.digits) < t.scaled as real + 0.5
  {
    if !Truthy(price) then Lit("0.00")
    else match ToNumber(price)
      case NaN => Lit("0.00")
      case Finite(x) => ToFixed(x, PricePrecision(x), "")
  }

  /** A smaller price never gets fewer decimals than a larger one. */
  lemma PricePrecisionAntitone(x: real, y: real)
    requires x <= y
    ensures PricePrecision(y) <= PricePrecision(x)
  {
  }

  /** From 0.0001 upwards the chosen precision keeps at least three
      significant digits: the price scaled by 10^decimals is at least 100. */
  lemma PrecisionKeepsThreeDigits(x: real)
    requires x >= 0.0001
    ensures x * Pow10(PricePrecision(x)) >= 100.0
  {
    if x < 0.01 {
      assert Pow10(6) == 1000000.0;
    } else if x < 1.0 {
      assert Pow10(4) == 10000.0;
    } else {
      assert Pow10(2) == 100.0;
    }
  }

  /** The unit `formatMarketCap` abbreviates with, and what it divides by. */
  datatype Unit = Unit(suffix: string, divisor: real)

  function MarketCapUnit(x: real): (u: Unit)
    ensures u.divisor >= 1.0
  {
    if x >= 1000000000.0 then Unit("B", 1000000000.0)
    else if x >= 1000000.0 then Unit("M", 1000000.0)
    else if x >= 1000.0 then Unit("K", 1000.0)
    else Unit("", 1.0)
  }

  /** The unit chosen is B for 1e9, M for 1e6, K for 1e3, or none below a
      thousand; it is the largest of the three not exceeding the value, so the
      abbreviated mantissa lies in [1, 1000) except above a thousand billion. */
  lemma MarketCapUnitIsLargestBelow(x: real)
    ensures var u := MarketCapUnit(x);
      && u.suffix in {"B", "M", "K", ""}
      && (u.suffix == "B" ==> u.divisor == 1000000000.0)
      && (u.suffix == "M" ==> u.divisor == 1000000.0)
      && (u.suffix == "K" ==> u.divisor == 1000.0)
      && (u.suffix == "" ==> u.divisor == 1.0)
      && (x < 1000.0 <==> u.suffix == "")
      && (x >= 1000.0 ==> u.divisor <= x)
      && (1000.0 <= x ==> 1000.0 <= u.divisor)
      && (1000000.0 <= x ==> 1000000.0 <= u.divisor)
      && (1000000000.0 <= x ==> 1000000000.0 <= u.divisor)
      && (x >= 1000.0 && u.suffix != "B" ==> x < 1000.0 * u.divisor)
  {
  }

  /** `formatMarketCap`: `"0"` for a falsy value or NaN, one decimal with a
      B/M/K suffix from a thousand upwards, and otherwise `value.toFixed(2)`
      on the raw value, which throws (`None`) when that value is a string. */
  function FormatMarketCap(value: Value): (r: Option<Text>)
    ensures r == Some(Lit("0")) <==> !Truthy(value) || ToNumber(value).NaN?
    ensures r.Some? && r.value.Lit? ==> r.value == Lit("0")
    ensures r.None? <==>
      value.Str? && Truthy(value) && ToNumber(value).Finite? && ToNumber(value).v < 1000.0
    ensures r.Some? && r.value.Fixed? ==>
      var x := ToNumber(value).v;
      var u := MarketCapUnit(x);
      && r.value.suffix == u.suffix
      && r.value.digits == (if u.suffix == "" then 2 else 1)
      && (r.value.negative <==> x < 0.0)
      && r.value.scaled as real - 0.5 <= Abs(x / u.divisor) * Pow10(r.value.digits)
      && Abs(x / u.divisor) * Pow10(r.value.digits) < r.value.scaled as real + 0.5
  {
    if !Truthy(value) then Some(Lit("0"))
    else match ToNumber(value)
      case NaN => Some(Lit("0"))
      case Finite(x) =>
        var u := MarketCapUnit(x);
        if u.suffix != "" then Some(ToFixed(x / u.divisor, 1, u.suffix))
        else if value.Str? then None
        else Some(ToFixed(x, 2, ""))
  }

  /** `formatPriceChange`: 0 for a falsy value, otherwise the number rounded
      to two decimals, a tie going away from zero (NaN stays NaN). */
  function FormatPriceChange(change: Value): (r: Numeric)
    ensures !Truthy(change) ==> r == Finite(0.0)
    ensures Truthy(change) ==> (r.NaN? <==> ToNumber(change).NaN?)
    ensures Truthy(change) && r.Finite? ==>
      var x := ToNumber(change).v;
      && Abs(x) - 0.005 < Abs(r.v) <= Abs(x) + 0.005
      && (x < 0.0 ==> r.v <= 0.0)
      && (x >= 0.0 ==> r.v >= 0.0)
      && (r.v * 100.0).Floor as real == r.v * 100.0
  {
    if !Truthy(change) then Finite(0.0)
    else match ToNumber(change)
      case NaN => NaN
      case Finite(x) =>
        var t := ToFixed(x, 2, "");
        assert Pow10(2) == 100.0;
        var n: int := if t.negative then 0 - t.scaled as int else t.scaled;
        assert t.scaled as real - 0.5 <= Abs(x) * 100.0 < t.scaled as real + 0.5;
        assert Abs(n as real / 100.0) == t.scaled as real / 100.0;
        assert (n as real / 100.0) * 100.0 == n as real;
        assert (n as real).Floor == n;
        Finite(n as real / 100.0)
  }

  /** Worked examples of `formatPrice`: 8, 4 and 2 decimals by magnitude,
      and the non-empty string "0", which is truthy and so renders as
      `"0.00000000"` rather than `"0.00"`. */
  lemma FormatPriceExamples()
    ensures FormatPrice(Num(Finite(0.000005))) == Fixed(false, 500, 8, "")
    ensures FormatPrice(Num(Finite(0.5))) == Fixed(false, 5000, 4, "")
    ensures FormatPrice(Num(Finite(12.345))) == Fixed(false, 1235, 2, "")
    ensures FormatPrice(Num(Finite(0.0))) == Lit("0.00")
    ensures FormatPrice(Str("0", Finite(0.0))) == Fixed(false, 0, 8, "")
  {
  }

  /** Worked examples of `formatMarketCap`: "1.5B", "2.3K", "0". */
  lemma FormatMarketCapExamples()
    ensures FormatMarketCap(Num(Finite(1500000000.0))) == Some(Fixed(false, 15, 1, "B"))
    ensures FormatMarketCap(Num(Finite(2300.0))) == Some(Fixed(false, 23, 1, "K"))
    ensures FormatMarketCap(Num(Finite(0.0))) == Some(Lit("0"))
  {
    assert Pow10(1) == 10.0;
    assert Abs(1500000000.0 / 1000000000.0) * Pow10(1) == 15.0;
    assert RoundHalfUp(15.0) == 15;
    assert Abs(2300.0 / 1000.0) * Pow10(1) == 23.0;
    assert RoundHalfUp(23.0) == 23;
  }

  /** The unit is chosen before rounding, so 999,950 renders as "1000.0K"
      rather than "1.0M". */
  lemma MarketCapRoundsPastUnit()
    ensures FormatMarketCap(Num(Finite(999950.0))) == Some(Fixed(false, 10000, 1, "K"))
  {
    assert MarketCapUnit(999950.0) == Unit("K", 1000.0);
    assert Pow10(1) == 10.0;
    assert Abs(999950.0 / 1000.0) * Pow10(1) == 9999.5;
    assert RoundHalfUp(9999.5) == 10000;
  }
}

=== FILE: price_refresh.dfy ===
/** `initializeData`: up to `MaxRetries` fetch attempts, the first that goes
    through fills the cache and ends the loop; after the last failure the
    reference data is loaded instead. The network is replaced by a sequence
    of attempt outcomes, each stamped with the time it completed. */
module PriceRefresh {
  import opened PriceCache
  import opened TokenMap

  const MaxRetries: nat := 3

  /** What one attempt produced: a failed request (network error, HTTP
      error status, unreadable body) or a parsed response. */
  datatype Attempt = FetchFailed(at: int) | Fetched(data: Response, at: int)

  /** An attempt succeeds when its response arrives and the whole update
      runs through; a throwing market cap is caught like a failed request. */
  predicate Succeeds(a: Attempt) {
    a.Fetched? && NoThrow(a.data)
  }

  /** The outcome of the loop: the return value, the cache, and how many
      attempts, waits and fallback loads it made. */
  datatype Refresh = Refresh(success: bool, cache: Cache, attempts: nat, waits: nat, fallbackLoads: nat)

  /** The cache after attempt `a` has been made (a failed update may have
      written part of the response before throwing). */
  function AfterAttempt(cache: Cache, a: Attempt): Cache {
    match a
    case FetchFailed(_) => cache
    case Fetched(data, at) => UpdateCache(UniqueTokens, cache, data, at).cache
  }

  /** The loop from iteration `retry` on. */
  function RetryFrom(retry: nat, cache: Cache, outcomes: seq<Attempt>, refs: seq<RefMeme>): (r: Refresh)
    requires retry < MaxRetries <= |outcomes|
    ensures 1 <= r.attempts <= MaxRetries - retry
    ensures r.waits == r.attempts - 1
    ensures r.success <==> exists i | retry <= i < MaxRetries :: Succeeds(outcomes[i])
    ensures r.success ==>
      && Succeeds(outcomes[retry + r.attempts - 1])
      && (forall i | retry <= i < retry + r.attempts - 1 :: !Succeeds(outcomes[i]))
      && r.fallbackLoads == 0
    ensures !r.success ==> r.attempts == MaxRetries - retry && r.fallbackLoads == 1
    decreases MaxRetries - retry
  {
    var a := outcomes[retry];
    var c := AfterAttempt(cache, a);
    if Succeeds(a) then Refresh(true, c, 1, 0, 0)
    else if retry == MaxRetries - 1 then Refresh(false, LoadFallbackData(c, refs, a.at), 1, 0, 1)
    else
      var rest := RetryFrom(retry + 1, c, outcomes, refs);
      Refresh(rest.success, rest.cache, rest.attempts + 1, rest.waits + 1, rest.fallbackLoads)
  }

  /** `initializeData()`: returns true after the first successful attempt,
      false after `MaxRetries` failures and one fallback load; it waits only
      between attempts, never after the last. */
  function InitializeData(cache: Cache, outcomes: seq<Attempt>, refs: seq<RefMeme>): (r: Refresh)
    requires MaxRetries <= |outcomes|
    ensures 1 <= r.attempts <= MaxRetries && r.waits == r.attempts - 1
    ensures r.success <==> exists i | 0 <= i < MaxRetries :: Succeeds(outcomes[i])
    ensures r.success ==>
      && Succeeds(outcomes[r.attempts - 1])
      && (forall i | 0 <= i < r.attempts - 1 :: !Succeeds(outcomes[i]))
      && r.fallbackLoads == 0
    ensures !r.success ==> r.attempts == MaxRetries && r.fallbackLoads == 1
  {
    RetryFrom(0, cache, outcomes, refs)
  }

  /** When every attempt fails, the final cache holds a fallback entry for
      each reference meme with details, stamped when the last attempt failed. */
  lemma {:induction false} FailedRefreshLoadsFallback(retry: nat, cache: Cache, outcomes: seq<Attempt>,
                                                      refs: seq<RefMeme>, i: int)
    requires retry < MaxRetries <= |outcomes|
    requires !RetryFrom(retry, cache, outcomes, refs).success
    requires 0 <= i < |refs| && refs[i].details.Some?
    ensures var c := RetryFrom(retry, cache, outcomes, refs).cache;
      var k := Key(refs[i].id);
      && k in c
      && c[k].data.isFallback
      && c[k].timestamp == outcomes[MaxRetries - 1].at
    decreases MaxRetries - retry
  {
    var c := AfterAttempt(cache, outcomes[retry]);
    if retry == MaxRetries - 1 {
      FallbackCoversDetailed(c, refs, outcomes[retry].at, i);
    } else {
      FailedRefreshLoadsFallback(retry + 1, c, outcomes, refs, i);
    }
  }

  /** When attempt `k` is the first to succeed, the final cache holds, for
      each meme id its response reaches, the live record of the last token
      reaching it, stamped with that attempt's time. */
  lemma {:induction false} SuccessfulRefreshWritesLive(retry: nat, cache: Cache, outcomes: seq<Attempt>,
                                                       refs: seq<RefMeme>, k: nat, i: int, m: string)
    requires retry <= k < MaxRetries <= |outcomes|
    requires Succeeds(outcomes[k]) && forall j | retry <= j < k :: !Succeeds(outcomes[j])
    requires LastWriter(UniqueTokens, outcomes[k].data, i, m)
    ensures var c := RetryFrom(retry, cache, outcomes, refs).cache;
      var a := outcomes[k];
      m in c && c[m] == Entry(LiveRecord(a.data[i].1, a.at), a.at)
    decreases k - retry
  {
    var a := outcomes[retry];
    if retry == k {
      UpdateFansOut(UniqueTokens, cache, a.data, a.at, i, m);
    } else {
      var c := AfterAttempt(cache, a);
      assert !Succeeds(a);
      assert RetryFrom(retry, cache, outcomes, refs).cache == RetryFrom(retry + 1, c, outcomes, refs).cache;
      SuccessfulRefreshWritesLive(retry + 1, c, outcomes, refs, k, i, m);
    }
  }

  /** Reading a reached meme id within the timeout of a successful refresh
      gives live data; after a failed refresh every reference meme with
      details is served fallback data. */
  lemma ServedAfterRefresh(cache: Cache, outcomes: seq<Attempt>, refs: seq<RefMeme>, now: int, i: int, id: int)
    requires MaxRetries <= |outcomes|
    ensures var r := InitializeData(cache, outcomes, refs);
      var a := outcomes[r.attempts - 1];
      r.success && LastWriter(UniqueTokens, a.data, i, Key(id)) && now - a.at < CacheTimeout ==>
        !GetTokenData(r.cache, refs, id, now).isFallback
    ensures var r := InitializeData(cache, outcomes, refs);
      !r.success && 0 <= i < |refs| && refs[i].details.Some? && refs[i].id == id ==>
        GetTokenData(r.cache, refs, id, now).isFallback
  {
    var r := InitializeData(cache, outcomes, refs);
    var a := outcomes[r.attempts - 1];
    if r.success && LastWriter(UniqueTokens, a.data, i, Key(id)) && now - a.at < CacheTimeout {
      SuccessfulRefreshWritesLive(0, cache, outcomes, refs, r.attempts - 1, i, Key(id));
    }
    if !r.success && 0 <= i < |refs| && refs[i].details.Some? && refs[i].id == id {
      FailedRefreshLoadsFallback(0, cache, outcomes, refs, i);
    }
  }
}

=== FILE: ranking.dfy ===
/** Leaderboard rank: one plus the number of users with strictly more
    points, so tied users share a rank and the next rank skips. */
module Ranking {

  /** How many totals are strictly greater than `p`. */
  function CountAbove(totals: seq<int>, p: int): (n: nat)
    ensures n <= |totals|
    decreases |totals|
  {
    if totals == [] then 0
    else (if totals[0] > p then 1 else 0) + CountAbove(totals[1..], p)
  }

  /** How many totals equal `p`. */
  function CountEqual(totals: seq<int>, p: int): (n: nat)
    ensures n <= |totals|
    decreases |totals|
  {
    if totals == [] then 0
    else (if totals[0] == p then 1 else 0) + CountEqual(totals[1..], p)
  }

  /** The rank of a user with `mine` points: one more than the number of
      users whose total is strictly greater. */
  function Rank(totals: seq<int>, mine: int): (r: nat)
    ensures r >= 1
    ensures r == 1 + |set j | 0 <= j < |totals| && totals[j] > mine|
  {
    CountAboveCardinality(totals, mine);
    CountAbove(totals, mine) + 1
  }

  /** The count is the number of positions holding a larger total. */
  lemma {:induction false} CountAboveCardinality(totals: seq<int>, p: int)
    ensures CountAbove(totals, p) == |set j | 0 <= j < |totals| && totals[j] > p|
    decreases |totals|
  {
    if totals != [] {
      var n := |totals| - 1;
      var init := totals[..n];
      CountAboveCardinality(init, p);
      assert totals == init + [totals[n]];
      CountAboveAppend(init, [totals[n]], p);
      var before := set j | 0 <= j < n && init[j] > p;
      var after := set j | 0 <= j < |totals| && totals[j] > p;
      if totals[n] > p {
        assert after == before + {n};
      } else {
        assert after == before;
      }
    }
  }

  /** The total of a user who is counted among the totals never ranks below
      the number of users. */
  lemma {:induction false} RankAtMostCount(totals: seq<int>, mine: int)
    requires mine in totals
    ensures Rank(totals, mine) <= |totals|
    decreases |totals|
  {
    if totals[0] != mine {
      RankAtMostCount(totals[1..], mine);
    }
  }

  /** Rank 1 exactly when nobody has more points. */
  lemma {:induction false} RankOneIffTop(totals: seq<int>, mine: int)
    ensures Rank(totals, mine) == 1 <==> forall i | 0 <= i < |totals| :: totals[i] <= mine
    decreases |totals|
  {
    if totals != [] {
      RankOneIffTop(totals[1..], mine);
      assert forall i | 1 <= i < |totals| :: totals[i] == totals[1..][i - 1];
    }
  }

  /** More points never give a worse rank. */
  lemma {:induction false} RankAntitone(totals: seq<int>, p: int, q: int)
    requires p <= q
    ensures Rank(totals, q) <= Rank(totals, p)
    decreases |totals|
  {
    if totals != [] {
      RankAntitone(totals[1..], p, q);
    }
  }

  /** Below a total held by k users, ranks skip: every lower total ranks at
      least k places after it. */
  lemma {:induction false} RankSkipsTies(totals: seq<int>, p: int, q: int)
    requires q < p
    ensures Rank(totals, q) >= Rank(totals, p) + CountEqual(totals, p)
    decreases |totals|
  {
    if totals != [] {
      RankSkipsTies(totals[1..], p, q);
    }
  }

  lemma {:induction false} CountAboveAppend(a: seq<int>, b: seq<int>, p: int)
    ensures CountAbove(a + b, p) == CountAbove(a, p) + CountAbove(b, p)
    decreases |a|
  {
    if a == [] {
      assert a + b == b;
    } else {
      assert (a + b)[1..] == a[1..] + b;
      CountAboveAppend(a[1..], b, p);
    }
  }

  /** Taking one element out of the totals. */
  lemma CountAboveRemove(b: seq<int>, j: int, p: int)
    requires 0 <= j < |b|
    ensures CountAbove(b, p) == (if b[j] > p then 1 else 0) + CountAbove(b[..j] + b[j + 1..], p)
  {
    assert b == b[..j] + ([b[j]] + b[j + 1..]);
    CountAboveAppend(b[..j], [b[j]] + b[j + 1..], p);
    CountAboveAppend([b[j]], b[j + 1..], p);
    CountAboveAppend(b[..j], b[j + 1..], p);
  }

  lemma MultisetRemove(b: seq<int>, j: int)
    requires 0 <= j < |b|
    ensures multiset(b[..j] + b[j + 1..]) == multiset(b) - multiset{b[j]}
  {
    assert b == b[..j] + [b[j]] + b[j + 1..];
  }

  /** Rank depends only on the multiset of totals, not on the order in
      which the store lists its users. */
  lemma {:induction false} RankDependsOnMultiset(a: seq<int>, b: seq<int>, p: int)
    requires multiset(a) == multiset(b)
    ensures Rank(a, p) == Rank(b, p)
    decreases |a|
  {
    if a != [] {
      assert a[0] in multiset(b);
      var j :| 0 <= j < |b| && b[j] == a[0];
      var rest := b[..j] + b[j + 1..];
      MultisetRemove(b, j);
      assert a == [a[0]] + a[1..];
      assert multiset(a[1..]) == multiset(a) - multiset{a[0]};
      RankDependsOnMultiset(a[1..], rest, p);
      CountAboveRemove(b, j, p);
    }
  }

  /** Totals 50, 50, 30 rank 1, 1, 3. */
  lemma TiedRanksExample()
    ensures Rank([50, 50, 30], 50) == 1
    ensures Rank([50, 50, 30], 30) == 3
  {
  }
}

=== FILE: token_map.dfy ===
/** The static many-to-one map from a price-feed token id to the meme ids
    that display that token's price. */
module TokenMap {

  /** Token id to the meme ids that show its price. */
  type TokenLists = map<string, seq<string>>

  const UniqueTokens: TokenLists := map[
    "pepe" := ["1", "2", "4"],
    "peanut-the-squirrel" := ["3", "5", "6", "7", "9"],
    "popcat" := ["8", "10", "11", "12", "13", "14"],
    "shiba-inu" := ["15"],
    "bonk" := ["16"],
    "dogwifcoin" := ["17"],
    "floki" := ["18"],
    "based-brett" := ["19"],
    "goatseus-maximus" := ["20"]
  ]

  /** The meme ids a token fans out to under a token map; a token outside
      the map reaches none, since the update skips tokens it has no list for. */
  function MemesOf(tokens: TokenLists, token: string): (ms: seq<string>)
    ensures token !in tokens ==> ms == []
    ensures token in tokens ==> ms == tokens[token]
  {
    if token in tokens then tokens[token] else []
  }

  predicate Disjoint(a: seq<string>, b: seq<string>) {
    forall i, j | 0 <= i < |a| && 0 <= j < |b| :: a[i] != b[j]
  }

  /** No meme id is listed under two different tokens. */
  predicate PairwiseDisjoint(tokens: TokenLists) {
    forall t, u | t in tokens && u in tokens && t != u :: Disjoint(tokens[t], tokens[u])
  }

  /** The token each configured meme id belongs to. */
  const OwnerOf: map<string, string> := map[
    "1" := "pepe", "2" := "pepe", "4" := "pepe",
    "3" := "peanut-the-squirrel", "5" := "peanut-the-squirrel", "6" := "peanut-the-squirrel",
    "7" := "peanut-the-squirrel", "9" := "peanut-the-squirrel",
    "8" := "popcat", "10" := "popcat", "11" := "popcat", "12" := "popcat", "13" := "popcat", "14" := "popcat",
    "15" := "shiba-inu", "16" := "bonk", "17" := "dogwifcoin", "18" := "floki",
    "19" := "based-brett", "20" := "goatseus-maximus"
  ]

  /** Every meme id listed under a token names that token as its owner. */
  lemma ListedUnderOwner(t: string, i: int)
    requires t in UniqueTokens && 0 <= i < |UniqueTokens[t]|
    ensures UniqueTokens[t][i] in OwnerOf && OwnerOf[UniqueTokens[t][i]] == t
  {
    if t == "pepe" {
    } else if t == "peanut-the-squirrel" {
    } else if t == "popcat" {
    } else {
    }
  }

  /** The service's own map is pairwise disjoint, so one update writes each
      meme id on behalf of at most one token. */
  lemma UniqueTokensDisjoint()
    ensures PairwiseDisjoint(UniqueTokens)
  {
    forall t, u, i, j | t in UniqueTokens && u in UniqueTokens && 0 <= i < |UniqueTokens[t]| && 0 <= j < |UniqueTokens[u]|
      && UniqueTokens[t][i] == UniqueTokens[u][j]
      ensures t == u
    {
      ListedUnderOwner(t, i);
      ListedUnderOwner(u, j);
    }
  }

  /** Every meme id the service's map reaches is one of "1" to "20". */
  lemma MappedMemeIds(t: string, m: string)
    requires m in MemesOf(UniqueTokens, t)
    ensures m in {"1", "2", "3", "4", "5", "6", "7", "8", "9", "10",
                  "11", "12", "13", "14", "15", "16", "17", "18", "19", "20"}
  {
  }
}

=== FILE: users.dfy ===
/** The rules inside the user controller: upsert on `createUser`,
    get-or-create on `getUser`, and the rank and task count reported by
    `getUserStats`. The user collection is a sequence of documents; a failed
    save is a parameter. */
module Users {
  import opened Options
  import opened Ranking

  /** Points per category. */
  datatype Breakdown = Breakdown(likes: nat, dislikes: nat, superLikes: nat, tasks: nat, referrals: nat)

  function Sum(b: Breakdown): nat {
    b.likes + b.dislikes + b.superLikes + b.tasks + b.referrals
  }

  const NoPoints: Breakdown := Breakdown(0, 0, 0, 0, 0)

  datatype User = User(
    telegramId: string,
    username: string,
    firstName: Option<string>,
    lastName: Option<string>,
    totalPoints: int,
    points: Breakdown,
    referredBy: Option<string>,
    completedTasks: Option<seq<string>>)

  /** The user collection. */
  type Store = seq<User>

  /** A request field is used only when truthy: present and not empty. */
  predicate Given(s: Option<string>) {
    s.Some? && s.value != ""
  }

  /** At most one document per telegram id. */
  predicate UniqueIds(store: Store) {
    forall i, j | 0 <= i < j < |store| :: store[i].telegramId != store[j].telegramId
  }

  /** Every user's total is the sum of its breakdown. */
  predicate PointsConsistent(store: Store) {
    forall i | 0 <= i < |store| :: store[i].totalPoints == Sum(store[i].points)
  }

  /** The lookup by telegram id: the first document carrying the id. */
  function FindUser(store: Store, id: string): (r: Option<nat>)
    ensures r.Some? ==> r.value < |store| && store[r.value].telegramId == id
    ensures r.Some? ==> forall j | 0 <= j < r.value :: store[j].telegramId != id
    ensures r.None? ==> forall j | 0 <= j < |store| :: store[j].telegramId != id
    decreases |store|
  {
    if store == [] then None
    else if store[0].telegramId == id then Some(0)
    else match FindUser(store[1..], id)
      case None => None
      case Some(i) => Some(i + 1)
  }

  /** The last four characters of an id, or the whole id when it is shorter. */
  function LastFour(id: string): string {
    if |id| <= 4 then id else id[|id| - 4..]
  }

  /** The username given, or `"user"` followed by the last four characters of the id. */
  function UsernameFor(id: string, username: Option<string>): string {
    if Given(username) then username.value else "user" + LastFour(id)
  }

  /** A given username is used as it is; otherwise the default is `"user"`
      followed by the id's last four characters, or the whole id when it is
      shorter. */
  lemma DefaultUsername(id: string, username: Option<string>)
    ensures Given(username) ==> UsernameFor(id, username) == username.value
    ensures !Given(username) ==>
      var s := UsernameFor(id, username);
      && |s| == 4 + (if |id| < 4 then |id| else 4)
      && s[..4] == "user"
      && s[4..] == id[|id| - |s| + 4..]
  {
  }

  /** A fresh document: every point bucket and the total at zero. */
  function NewUser(id: string, username: Option<string>, firstName: Option<string>, lastName: Option<string>): (u: User)
    ensures u.telegramId == id
    ensures u.totalPoints == 0 && u.points == NoPoints
    ensures u.username == UsernameFor(id, username)
  {
    User(id, UsernameFor(id, username), firstName, lastName, 0, NoPoints, None, None)
  }

  /** A controller reply: its status and, on success, its payload. */
  datatype Reply<T> = Ok(status: nat, data: T) | Fail(status: nat)

  datatype CreateRequest = CreateRequest(
    telegramId: string,
    username: Option<string>,
    firstName: Option<string>,
    lastName: Option<string>,
    referredBy: Option<string>)

  /** The update of an existing user: each of the three name fields is
      replaced by the request's value when that value is truthy, and nothing
      else about the user changes. */
  function Merge(u: User, req: CreateRequest): (r: User)
    ensures r.(username := u.username, firstName := u.firstName, lastName := u.lastName) == u
    ensures Given(req.username) ==> r.username == req.username.value
    ensures Given(req.firstName) ==> r.firstName == req.firstName
    ensures Given(req.lastName) ==> r.lastName == req.lastName
    ensures !Given(req.username) ==> r.username == u.username
    ensures !Given(req.firstName) ==> r.firstName == u.firstName
    ensures !Given(req.lastName) ==> r.lastName == u.lastName
  {
    u.(username := if Given(req.username) then req.username.value else u.username,
       firstName := if Given(req.firstName) then req.firstName else u.firstName,
       lastName := if Given(req.lastName) then req.lastName else u.lastName)
  }

  /** Sending the same update twice has the effect of sending it once. */
  lemma MergeIdempotent(u: User, req: CreateRequest)
    ensures Merge(Merge(u, req), req) == Merge(u, req)
  {
  }

  /** The store after `createUser`, its reply, and whether referral
      redemption was attempted (its failure is caught and never aborts). */
  datatype CreateResult = CreateResult(store: Store, reply: Reply<User>, referralAttempted: bool)

  /** `createUser`: update the existing document or create one, then save;
      a failed save aborts the transaction and answers 500. */
  function CreateUser(store: Store, req: CreateRequest, saved: bool): (r: CreateResult)
    ensures !saved ==> r.store == store && r.reply == Fail(500)
    ensures saved ==>
      && r.reply.Ok? && r.reply.status == 201
      && |r.store| >= |store|
      && FindUser(r.store, req.telegramId).Some?
      && r.store[FindUser(r.store, req.telegramId).value] == r.reply.data
      && (forall j | 0 <= j < |store| && store[j].telegramId != req.telegramId :: r.store[j] == store[j])
    ensures saved && FindUser(store, req.telegramId).Some? ==>
      var prior := store[FindUser(store, req.telegramId).value];
      var u := r.reply.data;
      && |r.store| == |store|
      && u.username == (if Given(req.username) then req.username.value else prior.username)
      && u.firstName == (if Given(req.firstName) then req.firstName else prior.firstName)
      && u.lastName == (if Given(req.lastName) then req.lastName else prior.lastName)
      && u.(username := prior.username, firstName := prior.firstName, lastName := prior.lastName) == prior
    ensures saved && FindUser(store, req.telegramId).None? ==>
      var u := r.reply.data;
      && |r.store| == |store| + 1
      && u.totalPoints == 0 && u.points == NoPoints
      && u.username == UsernameFor(req.telegramId, req.username)
      && u.firstName == req.firstName && u.lastName == req.lastName
    ensures r.referralAttempted <==>
      Given(req.referredBy)
      && (FindUser(store, req.telegramId).Some? ==> !Given(store[FindUser(store, req.telegramId).value].referredBy))
  {
    var found := FindUser(store, req.telegramId);
    var u := if found.Some? then Merge(store[found.value], req)
             else NewUser(req.telegramId, req.username, req.firstName, req.lastName);
    var attempted := Given(req.referredBy) && !Given(u.referredBy);
    if !saved then CreateResult(store, Fail(500), attempted)
    else if found.Some? then
      ReplaceKeepsInvariants(store, found.value, u);
      CreateResult(store[found.value := u], Ok(201, u), attempted)
    else
      AppendKeepsInvariants(store, u);
      CreateResult(store + [u], Ok(201, u), attempted)
  }

  /** Overwriting the found document with one of the same id and points. */
  lemma ReplaceKeepsInvariants(store: Store, i: nat, u: User)
    requires FindUser(store, u.telegramId) == Some(i)
    requires u.totalPoints == store[i].totalPoints && u.points == store[i].points
    ensures FindUser(store[i := u], u.telegramId) == Some(i)
    ensures UniqueIds(store) ==> UniqueIds(store[i := u])
  {
    FindFirst(store[i := u], u.telegramId, i);
  }

  lemma ReplaceKeepsConsistent(store: Store, i: nat, u: User)
    requires i < |store| && PointsConsistent(store)
    requires u.totalPoints == store[i].totalPoints && u.points == store[i].points
    ensures PointsConsistent(store[i := u])
  {
  }

  /** `createUser` adds no second document for an id and keeps every total
      equal to the sum of its breakdown. */
  lemma CreateUserKeepsInvariants(store: Store, req: CreateRequest, saved: bool)
    ensures var r := CreateUser(store, req, saved);
      && (UniqueIds(store) ==> UniqueIds(r.store))
      && (PointsConsistent(store) ==> PointsConsistent(r.store))
  {
    var r := CreateUser(store, req, saved);
    var found := FindUser(store, req.telegramId);
    if saved && found.Some? {
      var u := Merge(store[found.value], req);
      assert r.store == store[found.value := u];
      ReplaceKeepsInvariants(store, found.value, u);
      if PointsConsistent(store) {
        ReplaceKeepsConsistent(store, found.value, u);
      }
    } else if saved {
      var u := NewUser(req.telegramId, req.username, req.firstName, req.lastName);
      assert r.store == store + [u];
      AppendKeepsInvariants(store, u);
      if PointsConsistent(store) {
        assert Sum(u.points) == 0;
        AppendKeepsConsistent(store, u);
      }
    }
  }

  /** Appending a document whose id is not yet present. */
  lemma AppendKeepsInvariants(store: Store, u: User)
    requires FindUser(store, u.telegramId).None?
    ensures FindUser(store + [u], u.telegramId) == Some(|store|)
    ensures UniqueIds(store) ==> UniqueIds(store + [u])
  {
    FindFirst(store + [u], u.telegramId, |store|);
  }

  lemma AppendKeepsConsistent(store: Store, u: User)
    requires PointsConsistent(store) && u.totalPoints == Sum(u.points)
    ensures PointsConsistent(store + [u])
  {
  }

  /** The document found is the first one carrying the id. */
  lemma {:induction false} FindFirst(store: Store, id: string, i: nat)
    requires i < |store| && store[i].telegramId == id
    requires forall j | 0 <= j < i :: store[j].telegramId != id
    ensures FindUser(store, id) == Some(i)
    decreases i
  {
    if i > 0 {
      FindFirst(store[1..], id, i - 1);
    }
  }

  /** The store after `getUser` and its reply. */
  datatype GetResult = GetResult(store: Store, reply: Reply<User>)

  /** `getUser`: the existing document, or a new one saved under the id. */
  function GetUser(store: Store, id: string, queryUsername: Option<string>, saved: bool): (r: GetResult)
    ensures FindUser(store, id).Some? ==>
      r.store == store && r.reply == Ok(200, store[FindUser(store, id).value])
    ensures FindUser(store, id).None? && saved ==>
      && r.reply.Ok? && r.reply.status == 200
      && r.store == store + [r.reply.data]
      && r.reply.data.telegramId == id
      && r.reply.data.totalPoints == 0 && r.reply.data.points == NoPoints
      && r.reply.data.username == UsernameFor(id, queryUsername)
    ensures FindUser(store, id).None? && !saved ==> r.store == store && r.reply == Fail(500)
  {
    match FindUser(store, id)
    case Some(i) => GetResult(store, Ok(200, store[i]))
    case None =>
      var u := NewUser(id, queryUsername, None, None);
      if saved then GetResult(store + [u], Ok(200, u)) else GetResult(store, Fail(500))
  }

  /** `getUser` adds no second document for an id and keeps every total
      equal to the sum of its breakdown. */
  lemma GetUserKeepsInvariants(store: Store, id: string, queryUsername: Option<string>, saved: bool)
    ensures var r := GetUser(store, id, queryUsername, saved);
      && (UniqueIds(store) ==> UniqueIds(r.store))
      && (PointsConsistent(store) ==> PointsConsistent(r.store))
  {
    var r := GetUser(store, id, queryUsername, saved);
    if FindUser(store, id).None? && saved {
      var u := NewUser(id, queryUsername, None, None);
      assert r.store == store + [u];
      AppendKeepsInvariants(store, u);
      if PointsConsistent(store) {
        assert Sum(u.points) == 0;
        AppendKeepsConsistent(store, u);
      }
    }
  }

  /** Get-or-create is idempotent: once a call has answered, a second call
      for the same id returns the same user and leaves the store as it is,
      whatever username it passes. */
  lemma GetUserIdempotent(store: Store, id: string, q1: Option<string>, q2: Option<string>, s1: bool, s2: bool)
    requires GetUser(store, id, q1, s1).reply.Ok?
    ensures var first := GetUser(store, id, q1, s1);
      GetUser(first.store, id, q2, s2) == first
  {
    var first := GetUser(store, id, q1, s1);
    if FindUser(store, id).None? {
      AppendKeepsInvariants(store, first.reply.data);
    }
  }

  /** What `getUserStats` reports. */
  datatype Stats = Stats(
    telegramId: string,
    username: string,
    rank: nat,
    totalPoints: int,
    points: Breakdown,
    completedTasks: nat)

  function Totals(store: Store): (ts: seq<int>)
    ensures |ts| == |store|
    ensures forall i | 0 <= i < |store| :: ts[i] == store[i].totalPoints
  {
    seq(|store|, i requires 0 <= i < |store| => store[i].totalPoints)
  }

  /** The number of completed tasks, 0 when the list is absent. */
  function TaskCount(tasks: Option<seq<string>>): nat {
    if tasks.Some? then |tasks.value| else 0
  }

  /** `getUserStats`: 404 for an unknown id; otherwise the rank among all
      users, the points and the number of completed tasks. */
  function GetUserStats(store: Store, id: string): (r: Reply<Stats>)
    ensures FindUser(store, id).None? <==> r == Fail(404)
    ensures r.Ok? ==>
      var me := store[FindUser(store, id).value];
      && r.status == 200
      && r.data.telegramId == id
      && r.data.username == me.username
      && r.data.totalPoints == me.totalPoints
      && r.data.points == me.points
      && r.data.rank == Rank(Totals(store), me.totalPoints)
      && r.data.rank == 1 + |set j | 0 <= j < |store| && store[j].totalPoints > me.totalPoints|
      && 1 <= r.data.rank <= |store|
      && (r.data.rank == 1 <==> forall j | 0 <= j < |store| :: store[j].totalPoints <= me.totalPoints)
      && r.data.completedTasks == (if me.completedTasks.Some? then |me.completedTasks.value| else 0)
  {
    match FindUser(store, id)
    case None => Fail(404)
    case Some(i) =>
      var me := store[i];
      var ts := Totals(store);
      assert ts[i] == me.totalPoints;
      RankAtMostCount(ts, me.totalPoints);
      RankOneIffTop(ts, me.totalPoints);
      assert (set j | 0 <= j < |ts| && ts[j] > me.totalPoints)
          == (set j | 0 <= j < |store| && store[j].totalPoints > me.totalPoints);
      Ok(200, Stats(me.telegramId, me.username, Rank(ts, me.totalPoints), me.totalPoints,
                    me.points, TaskCount(me.completedTasks)))
  }
}
